=== FILE: README.md ===
# pac4j OIDC callback extraction and profile store, in Dafny

This project models two parts of pac4j, an authentication library for Java.

**The OIDC callback extractor** is `OidcExtractor.extract`, with `retrieveParameters`. One inbound callback has exactly one of five endings:

- credentials;
- no credentials (the provider answered with an error response);
- a handled logout, answered `200` with an empty body;
- a rejected logout, answered `400`;
- a technical failure.

A logout callback carries the `logoutendpoint` marker. It is either back-channel or front-channel:

- **Back-channel** carries a `logout_token` JWT. The token is parsed, and encrypted tokens are refused. With logout validation on, the token goes to the token validator with no expected nonce. The validated claims are then checked for a `nonce`, for the `http://schemas.openid.net/event/backchannel-logout` event member, and for a `sid`. The nonce and events checks are those of sections 2.4 and 2.6 of OpenID Connect Back-Channel Logout 1.0. That standard requires only `sub` or `sid`; pac4j also requires a non-blank `sid`.
- **Front-channel** destroys the session named by the `sid` parameter, as in OpenID Connect Front-Channel Logout 1.0.

Every other callback is an authentication response. It is checked in this order:

1. The issuer is checked, as in section 2.4 of RFC 9207, when the provider metadata advertises it (section 3).
2. The state parameter is checked against the session, as in section 10.12 of RFC 6749.
3. The code, ID token and access token are assembled into credentials.

**`CommonProfile`** is the profile store, as its test suite specifies it:

- the id and the typed id;
- general and authentication attributes, with the merge-or-replace rule for list values;
- roles and permissions, rejecting blank entries and null collections;
- the remembered flag and the linked id.

## How the model is built

The Java exceptions and response actions become constructors of `OidcModel.Outcome`:

- `Creds`, `NoCreds`, `Ok`, `BadRequest`, `Fatal`.
- `BadRequest` and `Fatal` carry the reason the source logs or puts in the exception message. This makes the order of the guards observable.

The calls made for their side effects are recorded, in order, as `OidcModel.Effect`s:

- the validator call with its expected nonce;
- `destroySessionBack` and `destroySessionFront` with their session id;
- `setResponseHeader`.

The collaborators are fields of `OidcModel.Collaborators`. The JWT parser, the token validator and the response parser are pure functions of their arguments. The callback URL is a string value, and the session store is a map value. The fields are:

- the JWT parser;
- the token validator;
- the authorization-response parser;
- the computed callback URL;
- the session store.

So the model applies them to the very values the source passes them.

The profile is an immutable record. Each mutator returns the new profile. A mutator that can throw returns `Common.Result`, whose failure carries the exception message.

Modules:

- `Common`: Option, Result, `IsBlank`.
- `OidcModel`: inputs, outcomes and constants.
- `OidcExtractor`: the decision procedure.
- `OidcExtractorProperties`: its lemmas.
- `AttributeStore`: the attribute maps and the multi-value merge.
- `CommonProfile`: the profile operations.
- `CommonProfileProperties`: the merge laws and the test scenarios.

Where pac4j's code differs from the logout standards it implements, the model follows the code:

- The extractor destroys a back-channel session with the unverified `sid` claim when logout validation is off. That `sid` may be absent. The nonce, events and sid requirements on logout tokens apply only when validation is on.
- With validation on, a validated logout token without a non-blank `sid` is answered 400, although the standard also accepts a token that carries only `sub`.

## Model

| member | source | states |
|---|---|---|
| OidcExtractor.Extract | pac4j-oidc/src/main/java/org/pac4j/oidc/credentials/extractor/OidcExtractor.java:54-169 | A callback ends in 200 or 400 exactly when it carries the logout marker. A 200 has an empty body. A non-logout callback calls nothing for side effects. Returned credentials are never all empty. |
| OidcExtractor.ValidatedSessionId | pac4j-oidc/src/main/java/org/pac4j/oidc/credentials/extractor/OidcExtractor.java:70-85 | Validated claims are accepted exactly when three things hold: no nonce, an `events` object with the back-channel member, and a non-blank sid. On acceptance the sid is returned. A nonce is reported before an events problem. |
| OidcExtractor.BackChannelLogout | pac4j-oidc/src/main/java/org/pac4j/oidc/credentials/extractor/OidcExtractor.java:58-94 | A back-channel logout ends only in 200 or 400. An unparseable or encrypted token makes no call. With validation on, the first call is the validator with no expected nonce. A 200 requires the validator to accept. |
| OidcExtractor.Authenticate | pac4j-oidc/src/main/java/org/pac4j/oidc/credentials/extractor/OidcExtractor.java:105-167 | The authentication branch yields credentials, no credentials or a technical failure. It yields no credentials exactly for a provider error response. A parse failure is fatal. Credentials are never empty. |
| OidcExtractor.RetrieveParameters | pac4j-oidc/src/main/java/org/pac4j/oidc/credentials/extractor/OidcExtractor.java:171-178 | The copied map has the same keys as the request parameters. Each key maps to the same values in the same order. |
| OidcExtractorProperties.RespondEffects | pac4j-oidc/src/main/java/org/pac4j/oidc/credentials/extractor/OidcExtractor.java:101-103 | Ending a handled logout destroys exactly the sessions its dispatch destroyed, and sets a response header. |
| OidcExtractorProperties.RespondLayout | pac4j-oidc/src/main/java/org/pac4j/oidc/credentials/extractor/OidcExtractor.java:101-103 | A handled logout answers 200 with an empty body. Its effects are the dispatch's calls, then `Cache-Control: no-cache, no-store`, then `Pragma: no-cache`. |
| OidcExtractorProperties.LogoutAnsweredImmediately | pac4j-oidc/src/main/java/org/pac4j/oidc/credentials/extractor/OidcExtractor.java:55-103 | A logout never yields credentials. It ends in 400, or in an empty 200 whose last two effects set `Cache-Control: no-cache, no-store` and `Pragma: no-cache`. |
| OidcExtractorProperties.HeadersOnlyWhenOk | pac4j-oidc/src/main/java/org/pac4j/oidc/credentials/extractor/OidcExtractor.java:101-103 | For any callback, a response header is set exactly when the outcome is the logout 200. |
| OidcExtractorProperties.DestroyedExactlyOnceIffOk | pac4j-oidc/src/main/java/org/pac4j/oidc/credentials/extractor/OidcExtractor.java:86-100 | Exactly one session destruction happens when the outcome is 200, and none otherwise. |
| OidcExtractorProperties.BadLogoutTokenRejected | pac4j-oidc/src/main/java/org/pac4j/oidc/credentials/extractor/OidcExtractor.java:62-94 | These tokens each yield 400 with no destruction: unparseable, encrypted, refused by the validator (validation on), or with an undecodable payload (validation off). Every 400 destroys no session. |
| OidcExtractorProperties.ValidatedLogoutChecks | pac4j-oidc/src/main/java/org/pac4j/oidc/credentials/extractor/OidcExtractor.java:68-90 | With validation on, the validator runs first with no nonce. The nonce, events and sid checks follow in that order, each yielding 400. The answer is 200 exactly when all pass, and then the validated sid is destroyed. |
| OidcExtractorProperties.ValidatorConsultedWithoutNonce | pac4j-oidc/src/main/java/org/pac4j/oidc/credentials/extractor/OidcExtractor.java:69 | Two validators that agree on every token with no expected nonce give the same extraction. |
| OidcExtractorProperties.UnvalidatedLogoutTrustsSid | pac4j-oidc/src/main/java/org/pac4j/oidc/credentials/extractor/OidcExtractor.java:86-90 | With validation off, the unverified sid claim goes to the back-channel destroy, possibly null. The answer is 200. |
| OidcExtractorProperties.FrontChannelDestroysNamedSession | pac4j-oidc/src/main/java/org/pac4j/oidc/credentials/extractor/OidcExtractor.java:95-103 | Without a logout token, the front-channel destroy runs once with the `sid` parameter, or null when it is absent. The answer is 200. |
| OidcExtractorProperties.AuthenticationBranch | pac4j-oidc/src/main/java/org/pac4j/oidc/credentials/extractor/OidcExtractor.java:105-112 | Without the marker nothing is called for side effects, and the answer is neither 200 nor 400. The extraction depends only on two things: the parser's answer for the computed callback URL and the request parameters, and the session. |
| OidcExtractorProperties.ErrorResponseGivesNoCredentials | pac4j-oidc/src/main/java/org/pac4j/oidc/credentials/extractor/OidcExtractor.java:114-118 | A provider error response yields the empty result, not a failure. |
| OidcExtractorProperties.IssuerCheckedBeforeState | pac4j-oidc/src/main/java/org/pac4j/oidc/credentials/extractor/OidcExtractor.java:123-127 | When the issuer parameter is advertised, a wrong or missing issuer is fatal whatever the state. |
| OidcExtractorProperties.IssuerIgnoredUnlessAdvertised | pac4j-oidc/src/main/java/org/pac4j/oidc/credentials/extractor/OidcExtractor.java:123-127 | When the issuer parameter is not advertised, the response issuer does not affect the outcome. |
| OidcExtractorProperties.StateChecked | pac4j-oidc/src/main/java/org/pac4j/oidc/credentials/extractor/OidcExtractor.java:129-145 | With state checking on and once the issuer is accepted, each of these is fatal with its own reason: no stored state, no response state, or a different response state. |
| OidcExtractorProperties.StateIgnoredWhenDisabled | pac4j-oidc/src/main/java/org/pac4j/oidc/credentials/extractor/OidcExtractor.java:129-145 | With state checking off, neither the session nor the response state affects the outcome. |
| OidcExtractorProperties.CredentialsAssembled | pac4j-oidc/src/main/java/org/pac4j/oidc/credentials/extractor/OidcExtractor.java:147-167 | Credentials are returned exactly when issuer and state are accepted and some token is present. They hold exactly the response's code, ID token and access token. If all three are absent, the result is fatal. |
| AttributeStore.UnseenContents | pac4j-core/src/test/java/org/pac4j/core/profile/CommonProfileTests.java:154-161 | The appended elements are exactly the new ones not already stored. Each appears once, and they keep the order of the added list. |
| AttributeStore.Merge | pac4j-core/src/test/java/org/pac4j/core/profile/CommonProfileTests.java:127-161 | A merged list starts with the stored list. It holds exactly the elements of both lists and appends only new elements. It stays duplicate-free, and it is unchanged when nothing new is added. |
| AttributeStore.Combine | pac4j-core/src/test/java/org/pac4j/core/profile/CommonProfileTests.java:127-143 | In replace mode, or when either value is not a list, the new value wins. In merge mode a list extends the stored list and keeps it as a prefix. |
| AttributeStore.Put | pac4j-core/src/test/java/org/pac4j/core/profile/CommonProfileTests.java:36-43 | Adding an attribute adds its key and leaves every other key's value unchanged. |
| AttributeStore.PutAll | pac4j-core/src/test/java/org/pac4j/core/profile/CommonProfileTests.java:172-181 | Adding a map adds its keys, leaves the other keys unchanged and combines each added entry. |
| CommonProfile.NewProfile | pac4j-core/src/test/java/org/pac4j/core/profile/CommonProfileTests.java:28-43 | A fresh profile has a null id and no linked id, and is not remembered. Its attribute maps and role and permission sets are empty. |
| CommonProfile.SetId | pac4j-core/src/test/java/org/pac4j/core/profile/CommonProfileTests.java:239-243 | `setId` fails with "id cannot be blank" exactly for a blank or null id. Otherwise it sets the id and nothing else. |
| CommonProfile.TypedId | pac4j-core/src/test/java/org/pac4j/core/profile/CommonProfileTests.java:232-237 | The typed id is the class name, then the separator, then the id. |
| CommonProfile.AddAttribute | pac4j-core/src/test/java/org/pac4j/core/profile/CommonProfileTests.java:36-43 | Only the general attributes change. The key is present afterwards, and in replace mode it holds the given value. |
| CommonProfile.AddAttributes | pac4j-core/src/test/java/org/pac4j/core/profile/CommonProfileTests.java:172-181 | Only the general attributes change. They gain the map's keys, and in replace mode they hold its values. |
| CommonProfile.AddAuthenticationAttribute | pac4j-core/src/test/java/org/pac4j/core/profile/CommonProfileTests.java:163-170 | Only the authentication attributes change. The key is present afterwards, and in replace mode it holds the given value. |
| CommonProfile.AddAuthenticationAttributes | pac4j-core/src/test/java/org/pac4j/core/profile/CommonProfileTests.java:183-192 | Only the authentication attributes change. They gain the map's keys, and in replace mode they hold its values. |
| CommonProfile.AddRole | pac4j-core/src/test/java/org/pac4j/core/profile/CommonProfileTests.java:206-213 | A role is added exactly when it is not blank, and nothing else changes. A blank role fails with "role cannot be blank". |
| CommonProfile.AddRoles | pac4j-core/src/test/java/org/pac4j/core/profile/CommonProfileTests.java:251-255 | A null collection fails with "roles cannot be null". Otherwise the roles become the old roles plus the collection's entries. |
| CommonProfile.AddPermission | pac4j-core/src/test/java/org/pac4j/core/profile/CommonProfileTests.java:215-222 | A permission is added exactly when it is not blank, and nothing else changes. A blank permission fails with "permission cannot be blank". |
| CommonProfile.AddPermissions | pac4j-core/src/test/java/org/pac4j/core/profile/CommonProfileTests.java:264-268 | A null collection fails with "permissions cannot be null". Otherwise the permissions become the old ones plus the collection's entries. |
| CommonProfile.SetRemembered | pac4j-core/src/test/java/org/pac4j/core/profile/CommonProfileTests.java:224-230 | The remembered flag takes the given value, and nothing else changes. |
| CommonProfile.SetLinkedId | pac4j-core/src/test/java/org/pac4j/core/profile/CommonProfileTests.java:279-292 | The linked id takes the given value, null included, and nothing else changes. |
| CommonProfileProperties.UnseenKeepsFirstSeenOrder | pac4j-core/src/test/java/org/pac4j/core/profile/CommonProfileTests.java:154-161 | Appended elements appear in the order of their first occurrence in the added list. |
| CommonProfileProperties.MergeTwiceIsMergeOfConcatenation | pac4j-core/src/test/java/org/pac4j/core/profile/CommonProfileTests.java:127-134 | Merging two lists one after the other equals merging their concatenation once. |
| CommonProfileProperties.MergeIdempotent | pac4j-core/src/test/java/org/pac4j/core/profile/CommonProfileTests.java:145-152 | Merging the same list a second time changes nothing. |
| CommonProfileProperties.PutEachIsPutAll | pac4j-core/src/test/java/org/pac4j/core/profile/CommonProfileTests.java:172-181 | Adding entries one key at a time, in any duplicate-free order, equals adding them as one map. |
| CommonProfileProperties.AddAttributesIsAddAttributeForEach | pac4j-core/src/test/java/org/pac4j/core/profile/CommonProfileTests.java:172-181 | `addAttributes` equals calling `addAttribute` for each entry, in any iteration order. |
| CommonProfileProperties.AddAttributesOfOneEntry | pac4j-core/src/test/java/org/pac4j/core/profile/CommonProfileTests.java:172-192 | Adding a one-entry map equals adding that entry. This holds for both attribute stores. |
| CommonProfileProperties.SetIdThenGetId | pac4j-core/src/test/java/org/pac4j/core/profile/CommonProfileTests.java:28-34 | A fresh id is null. After `setId(x)` for a non-blank x, the id is x. |
| CommonProfileProperties.NullIdRejected | pac4j-core/src/test/java/org/pac4j/core/profile/CommonProfileTests.java:239-243 | `setId(null)` and `setId("")` fail with "id cannot be blank". |
| CommonProfileProperties.TypedIdDeterminesId | pac4j-core/src/test/java/org/pac4j/core/profile/CommonProfileTests.java:232-237 | For profiles of one class with non-null ids, equal typed ids mean equal ids, and the converse holds. (A null id prints as "null", so it is not covered.) |
| CommonProfileProperties.TypedIdOfCommonProfile | pac4j-core/src/test/java/org/pac4j/core/profile/CommonProfileTests.java:232-237 | With id "id", the typed id is `org.pac4j.core.profile.CommonProfile`, then the separator, then `id`. |
| CommonProfileProperties.AddAttributeToFreshProfile | pac4j-core/src/test/java/org/pac4j/core/profile/CommonProfileTests.java:163-192 | One attribute added to a fresh profile, singly or as a map, gives a one-entry map in the chosen store. The other store stays empty. |
| CommonProfileProperties.MergeModeAppendsUnseen | pac4j-core/src/test/java/org/pac4j/core/profile/CommonProfileTests.java:127-134 | In merge mode a list added under a list-valued key appends its unseen elements. The key set does not change. |
| CommonProfileProperties.ReplaceModeOverwrites | pac4j-core/src/test/java/org/pac4j/core/profile/CommonProfileTests.java:136-143 | In replace mode the new value overwrites the stored one. |
| CommonProfileProperties.MergeScenarioAppends | pac4j-core/src/test/java/org/pac4j/core/profile/CommonProfileTests.java:127-134 | ["Value1"] then ["Value2", "Value3"] gives one key holding all three values. |
| CommonProfileProperties.ReplaceScenarioOverwrites | pac4j-core/src/test/java/org/pac4j/core/profile/CommonProfileTests.java:136-143 | In replace mode, ["Value1"] then ["Value2", "Value3"] keeps only the second list. |
| CommonProfileProperties.MergeScenarioDuplicate | pac4j-core/src/test/java/org/pac4j/core/profile/CommonProfileTests.java:145-152 | Adding [v] twice stores [v]. |
| CommonProfileProperties.MergeScenarioDeDuplicates | pac4j-core/src/test/java/org/pac4j/core/profile/CommonProfileTests.java:154-161 | For any v other than "Value3", [v, "Value2"] then [v, "Value3"] gives [v, "Value2", "Value3"]. |
| CommonProfileProperties.RoleAndPermissionAdded | pac4j-core/src/test/java/org/pac4j/core/profile/CommonProfileTests.java:206-222 | A role or permission added to a fresh profile gives a one-element set that contains it. |
| CommonProfileProperties.BlankOrNullRejected | pac4j-core/src/test/java/org/pac4j/core/profile/CommonProfileTests.java:245-268 | A blank role or permission fails with its message. So does a null role or permission collection. |
| CommonProfileProperties.RememberedDefaultsFalse | pac4j-core/src/test/java/org/pac4j/core/profile/CommonProfileTests.java:224-230 | A fresh profile is not remembered, and it can be set to remembered. |
| CommonProfileProperties.NullLinkedIdLeavesNull | pac4j-core/src/test/java/org/pac4j/core/profile/CommonProfileTests.java:279-292 | Setting a null linked id leaves it null, whether or not one was set before. |

## Left out

- JWT parsing, encryption detection, signature and claims validation: these belong to the nimbus library. Their results are inputs: `JwtParse`, `ClaimsRead` and `Validation`.
- `AuthenticationResponseParser`, `new URI(...)` and `computeFinalCallbackUrl`: the parser is a function input. Its failure covers a URISyntaxException and a ParseException. The computed callback URL is an input value.
- The session store and the state value retriever: modelled as a map from attribute name to stored state.
- The logout handler: only which destroy call is made, and with which session id, is recorded.
- Logging: not modelled. The reasons carried by `BadRequest` and `Fatal` name the message that would be logged or thrown.
- Extract: the source casts the `sid` claim with `(String)`, and a non-string claim makes that cast throw a ClassCastException. The model types the claim as an optional string, so that outcome is not modelled.
- `CommonHelper.isBlank` is not part of this model. `Common.IsBlank` assumes null, or only characters up to U+0020 (what `String.trim()` removes). The proofs rely on it only for null and the empty string being blank, and for "id" not being blank (`TypedIdOfCommonProfile`).
- The values of `Pac4jConstants` are not part of this model. They are taken as `logoutendpoint`, `sid`, `#` and the empty string.
- CommonProfile.AddRoles: roles and permissions are sets, so the insertion order pac4j keeps is not modelled. `CommonProfileTests` checks only size and membership.
- AttributeStore.Combine: in merge mode, a single value meeting a list (either way round) replaces the stored value. `CommonProfileTests` does not fix this case.
- AttributeStore.Merge: the tests do not fix what happens when the stored list already has duplicates. The model keeps the stored list as it is and appends only elements it lacks.
- Blank attribute keys: `CommonProfileTests` does not exercise them for `addAttribute`, so the model does not reject them.
- Null attribute values and null attribute maps: `CommonProfileTests` does not exercise null values or maps, so they are not modelled.
- `CommonProfile`'s implementation is not modelled, so the default merge mode of `new CommonProfile()` is unknown. The mode is a parameter of `NewProfile`.
- Typed getters: gender, locale, picture and profile URL, username. They depend on JDK conversions.
- Serialization round-trip: the test uses the JDK serializer and asserts only a non-null result.
- The read-only views of the attribute maps: the tests assert nothing.
- `JBCryptPasswordEncoder`: a one-line delegation to the BCrypt library.
- Request parameter lookup returns the first value of a parameter, as the servlet API does. A parameter with no values counts as absent.

=== FILE: attribute_store.dfy ===
/**
  The attribute maps of a profile and the multi-value merge rule.

  A profile configured to merge attributes appends to a stored list the
  elements of a newly added list that it does not already hold, in their
  order of first appearance; otherwise, and whenever either value is not a
  list, the new value replaces the stored one.
 */
module AttributeStore {
  import opened Common

  /** An attribute value: a single value or a list of values. */
  datatype AttributeValue = Single(value: string) | Multi(values: seq<string>)

  type Attributes = map<string, AttributeValue>

  predicate NoDuplicates<T(==)>(s: seq<T>) {
    forall i, j :: 0 <= i < j < |s| ==> s[i] != s[j]
  }

  /** `a` is `b` with some elements left out, the rest kept in order. */
  predicate IsSubsequence<T(==)>(a: seq<T>, b: seq<T>)
    decreases |b|
  {
    a == [] || (b != [] && ((a[0] == b[0] && IsSubsequence(a[1..], b[1..])) || IsSubsequence(a, b[1..])))
  }

  /** Position of the first occurrence of `e` in `s`. */
  function FirstIndex<T(==)>(s: seq<T>, e: T): (i: nat)
    requires e in s
    ensures i < |s| && s[i] == e
    ensures forall j :: 0 <= j < i ==> s[j] != e
  {
    if s[0] == e then 0 else 1 + FirstIndex(s[1..], e)
  }

  /** The elements of `ys` not in `seen`, each once, in order of first appearance in `ys`. */
  function Unseen(seen: seq<string>, ys: seq<string>): (r: seq<string>)
    decreases |ys|
  {
    if ys == [] then []
    else if ys[0] in seen then Unseen(seen, ys[1..])
    else [ys[0]] + Unseen(seen + [ys[0]], ys[1..])
  }

  /** `Unseen` keeps exactly the elements of `ys` not in `seen`, each once,
      and keeps them in the order of `ys`. */
  lemma {:induction false} UnseenContents(seen: seq<string>, ys: seq<string>)
    ensures var r := Unseen(seen, ys);
      && (forall e :: e in r <==> e in ys && e !in seen)
      && NoDuplicates(r)
      && IsSubsequence(r, ys)
    decreases |ys|
  {
    if ys != [] {
      if ys[0] in seen {
        UnseenContents(seen, ys[1..]);
      } else {
        var rest := Unseen(seen + [ys[0]], ys[1..]);
        UnseenContents(seen + [ys[0]], ys[1..]);
        NoDuplicatesAppend([ys[0]], rest);
        assert ([ys[0]] + rest)[1..] == rest;
      }
    }
  }

  lemma NoDuplicatesAppend<T>(a: seq<T>, b: seq<T>)
    requires NoDuplicates(a) && NoDuplicates(b)
    requires forall e :: e in b ==> e !in a
    ensures NoDuplicates(a + b)
  {
    forall i, j | 0 <= i < j < |a + b|
      ensures (a + b)[i] != (a + b)[j]
    {
      if i < |a| && |a| <= j {
        assert (a + b)[j] == b[j - |a|];
        assert (a + b)[j] in b;
      }
    }
  }

  /** Nothing is unseen when every element has been seen. */
  lemma UnseenOfSeen(seen: seq<string>, ys: seq<string>)
    ensures (forall e :: e in ys ==> e in seen) ==> Unseen(seen, ys) == []
    ensures NoDuplicates(seen) ==> NoDuplicates(seen + Unseen(seen, ys))
  {
    UnseenContents(seen, ys);
    if NoDuplicates(seen) {
      NoDuplicatesAppend(seen, Unseen(seen, ys));
    }
  }

  /** The merge of a stored list with a newly added one. */
  function Merge(existing: seq<string>, incoming: seq<string>): (r: seq<string>)
    ensures |r| >= |existing| && r[..|existing|] == existing
    ensures forall e :: e in r <==> e in existing || e in incoming
    ensures forall e :: e in r[|existing|..] ==> e in incoming && e !in existing
    ensures NoDuplicates(existing) ==> NoDuplicates(r)
    ensures (forall e :: e in incoming ==> e in existing) ==> r == existing
  {
    var added := Unseen(existing, incoming);
    assert (existing + added)[|existing|..] == added;
    UnseenContents(existing, incoming);
    UnseenOfSeen(existing, incoming);
    existing + added
  }

  /** The value stored under a key once `value` has been added under it. */
  function Combine(stored: Option<AttributeValue>, mergeMode: bool, value: AttributeValue): (r: AttributeValue)
    ensures !mergeMode || stored.None? || stored.value.Single? || value.Single? ==> r == value
    ensures mergeMode && stored.Some? && stored.value.Multi? && value.Multi? ==>
      r.Multi? && |r.values| >= |stored.value.values| && r.values[..|stored.value.values|] == stored.value.values
      && (forall e :: e in r.values <==> e in stored.value.values || e in value.values)
  {
    match (stored, value)
    case (Some(Multi(existing)), Multi(added)) =>
      if mergeMode then Multi(Merge(existing, added)) else value
    case _ => value
  }

  function Lookup(store: Attributes, key: string): (v: Option<AttributeValue>) {
    if key in store then Some(store[key]) else None
  }

  /** `addAttribute(key, value)` on one attribute map. */
  function Put(store: Attributes, mergeMode: bool, key: string, value: AttributeValue): (r: Attributes)
    ensures r.Keys == store.Keys + {key}
    ensures forall k :: k in store && k != key ==> r[k] == store[k]
    ensures r[key] == Combine(Lookup(store, key), mergeMode, value)
  {
    store[key := Combine(Lookup(store, key), mergeMode, value)]
  }

  /** `addAttributes(map)` on one attribute map: every entry added under its own key. */
  function PutAll(store: Attributes, mergeMode: bool, incoming: Attributes): (r: Attributes)
    ensures r.Keys == store.Keys + incoming.Keys
    ensures forall k :: k in store && k !in incoming ==> r[k] == store[k]
    ensures forall k :: k in incoming ==> r[k] == Combine(Lookup(store, k), mergeMode, incoming[k])
  {
    map k | k in store.Keys + incoming.Keys ::
      if k in incoming then Combine(Lookup(store, k), mergeMode, incoming[k]) else store[k]
  }

  /** Adding the entries of `incoming` one key at a time, in the order `keys` lists them. */
  function PutEach(store: Attributes, mergeMode: bool, incoming: Attributes, keys: seq<string>): (r: Attributes)
    requires forall k :: k in keys ==> k in incoming
    decreases |keys|
  {
    if keys == [] then store
    else PutEach(Put(store, mergeMode, keys[0], incoming[keys[0]]), mergeMode, incoming, keys[1..])
  }
}

=== FILE: common.dfy ===
/**
  Small shared vocabulary: Java's nullable references become `Option`,
  exceptions thrown by validation helpers become `Result`, and
  `CommonHelper.isBlank` becomes the predicate `IsBlank`.
 */
module Common {

  /** A nullable Java reference: `None` stands for `null`. */
  datatype Option<+T> = None | Some(value: T)

  /** The outcome of an operation that either returns a value or throws. */
  datatype Result<+T, +E> = Success(value: T) | Failure(error: E)

  /** `CommonHelper.isBlank`: the string is null, or nothing is left of it
      once `String.trim()` has removed every character up to U+0020. */
  predicate IsBlank(s: Option<string>) {
    match s
    case None => true
    case Some(text) => forall i :: 0 <= i < |text| ==> text[i] <= ' '
  }

  /** `String.valueOf` as used by Java string concatenation: null prints as "null". */
  function JavaString(s: Option<string>): (r: string) {
    match s
    case None => "null"
    case Some(text) => text
  }
}

=== FILE: common_profile.dfy ===
/**
  `CommonProfile` as its test suite describes it: an id, two attribute maps
  (general and authentication) sharing the merge rule of `AttributeStore`,
  sets of roles and permissions guarded against blank and null input, the
  remembered flag and the linked id.

  Each mutator is a function from the profile before to the profile after;
  one that can throw a `TechnicalException` returns a `Result` whose failure
  carries the exception message.
 */
module CommonProfile {
  import opened Common
  import opened AttributeStore

  /** `Pac4jConstants.TYPED_ID_SEPARATOR`. */
  const TypedIdSeparator: string := "#"
  /** The class name `getTypedId` starts with for a plain `CommonProfile`. */
  const CommonProfileClass: string := "org.pac4j.core.profile.CommonProfile"

  datatype Profile = Profile(
    className: string,
    mergeAttributes: bool,
    id: Option<string>,
    attributes: Attributes,
    authenticationAttributes: Attributes,
    roles: set<string>,
    permissions: set<string>,
    remembered: bool,
    linkedId: Option<string>)

  /** `new CommonProfile(mergeAttributes)` (or a subclass named `className`). */
  function NewProfile(className: string, mergeAttributes: bool): (p: Profile)
    ensures p.className == className && p.mergeAttributes == mergeAttributes
    ensures p.id.None? && p.linkedId.None? && !p.remembered
    ensures |p.attributes| == 0 && |p.authenticationAttributes| == 0
    ensures |p.roles| == 0 && |p.permissions| == 0
  {
    Profile(className, mergeAttributes, None, map[], map[], {}, {}, false, None)
  }

  /** `setId`: rejects a blank id, otherwise replaces the id and nothing else. */
  function SetId(p: Profile, id: Option<string>): (r: Result<Profile, string>)
    ensures r.Success? <==> !IsBlank(id)
    ensures r.Success? ==> r.value.id == id && r.value.(id := p.id) == p
    ensures r.Failure? ==> r.error == "id cannot be blank"
  {
    if IsBlank(id) then Failure("id cannot be blank") else Success(p.(id := id))
  }

  /** `getTypedId`: the class name, the separator and the id, concatenated. */
  function TypedId(p: Profile): (t: string)
    ensures |t| == |p.className| + |TypedIdSeparator| + |JavaString(p.id)|
    ensures t[..|p.className|] == p.className
    ensures t[|p.className|..|p.className| + |TypedIdSeparator|] == TypedIdSeparator
    ensures t[|p.className| + |TypedIdSeparator|..] == JavaString(p.id)
  {
    var t := p.className + TypedIdSeparator + JavaString(p.id);
    assert t[..|p.className|] == p.className;
    assert t[|p.className|..|p.className| + |TypedIdSeparator|] == TypedIdSeparator;
    assert t[|p.className| + |TypedIdSeparator|..] == JavaString(p.id);
    t
  }

  /** `addAttribute`: only the general attribute map changes. */
  function AddAttribute(p: Profile, key: string, value: AttributeValue): (r: Profile)
    ensures r.(attributes := p.attributes) == p
    ensures key in r.attributes
    ensures !p.mergeAttributes ==> r.attributes[key] == value
  {
    p.(attributes := Put(p.attributes, p.mergeAttributes, key, value))
  }

  /** `addAttributes`: every entry added to the general attribute map. */
  function AddAttributes(p: Profile, attributes: Attributes): (r: Profile)
    ensures r.(attributes := p.attributes) == p
    ensures r.attributes.Keys == p.attributes.Keys + attributes.Keys
    ensures !p.mergeAttributes ==> forall k :: k in attributes ==> r.attributes[k] == attributes[k]
  {
    p.(attributes := PutAll(p.attributes, p.mergeAttributes, attributes))
  }

  /** `addAuthenticationAttribute`: only the authentication attribute map changes. */
  function AddAuthenticationAttribute(p: Profile, key: string, value: AttributeValue): (r: Profile)
    ensures r.(authenticationAttributes := p.authenticationAttributes) == p
    ensures key in r.authenticationAttributes
    ensures !p.mergeAttributes ==> r.authenticationAttributes[key] == value
  {
    p.(authenticationAttributes := Put(p.authenticationAttributes, p.mergeAttributes, key, value))
  }

  /** `addAuthenticationAttributes`: every entry added to the authentication attribute map. */
  function AddAuthenticationAttributes(p: Profile, attributes: Attributes): (r: Profile)
    ensures r.(authenticationAttributes := p.authenticationAttributes) == p
    ensures r.authenticationAttributes.Keys == p.authenticationAttributes.Keys + attributes.Keys
    ensures !p.mergeAttributes ==> forall k :: k in attributes ==> r.authenticationAttributes[k] == attributes[k]
  {
    p.(authenticationAttributes := PutAll(p.authenticationAttributes, p.mergeAttributes, attributes))
  }

  /** Adds one non-blank entry to a set, or fails with "<what> cannot be blank". */
  function AddEntry(entries: set<string>, what: string, entry: Option<string>): (r: Result<set<string>, string>)
    ensures r.Success? <==> !IsBlank(entry)
    ensures r.Success? ==> r.value == entries + {entry.value}
    ensures r.Failure? ==> r.error == what + " cannot be blank"
  {
    if IsBlank(entry) then Failure(what + " cannot be blank") else Success(entries + {entry.value})
  }

  /** Adds a collection of entries to a set, or fails with "<what> cannot be null". */
  function AddEntries(entries: set<string>, what: string, added: Option<seq<string>>): (r: Result<set<string>, string>)
    ensures r.Success? <==> added.Some?
    ensures r.Success? ==> forall e :: e in r.value <==> e in entries || e in added.value
    ensures r.Failure? ==> r.error == what + " cannot be null"
  {
    match added
    case None => Failure(what + " cannot be null")
    case Some(list) => Success(entries + set e | e in list)
  }

  /** `addRole`: a blank role is rejected and the profile is left as it was. */
  function AddRole(p: Profile, role: Option<string>): (r: Result<Profile, string>)
    ensures r.Success? <==> !IsBlank(role)
    ensures r.Success? ==> r.value.roles == p.roles + {role.value} && r.value.(roles := p.roles) == p
    ensures r.Failure? ==> r.error == "role cannot be blank"
  {
    match AddEntry(p.roles, "role", role)
    case Failure(e) => Failure(e)
    case Success(roles) => Success(p.(roles := roles))
  }

  /** `addRoles`: a null collection is rejected; otherwise its entries join the role set. */
  function AddRoles(p: Profile, roles: Option<seq<string>>): (r: Result<Profile, string>)
    ensures r.Success? <==> roles.Some?
    ensures r.Success? ==>
      (forall e :: e in r.value.roles <==> e in p.roles || e in roles.value) && r.value.(roles := p.roles) == p
    ensures r.Failure? ==> r.error == "roles cannot be null"
  {
    match AddEntries(p.roles, "roles", roles)
    case Failure(e) => Failure(e)
    case Success(all) => Success(p.(roles := all))
  }

  /** `addPermission`: a blank permission is rejected and the profile is left as it was. */
  function AddPermission(p: Profile, permission: Option<string>): (r: Result<Profile, string>)
    ensures r.Success? <==> !IsBlank(permission)
    ensures r.Success? ==>
      r.value.permissions == p.permissions + {permission.value} && r.value.(permissions := p.permissions) == p
    ensures r.Failure? ==> r.error == "permission cannot be blank"
  {
    match AddEntry(p.permissions, "permission", permission)
    case Failure(e) => Failure(e)
    case Success(permissions) => Success(p.(permissions := permissions))
  }

  /** `addPermissions`: a null collection is rejected; otherwise its entries join the permission set. */
  function AddPermissions(p: Profile, permissions: Option<seq<string>>): (r: Result<Profile, string>)
    ensures r.Success? <==> permissions.Some?
    ensures r.Success? ==>
      (forall e :: e in r.value.permissions <==> e in p.permissions || e in permissions.value)
      && r.value.(permissions := p.permissions) == p
    ensures r.Failure? ==> r.error == "permissions cannot be null"
  {
    match AddEntries(p.permissions, "permissions", permissions)
    case Failure(e) => Failure(e)
    case Success(all) => Success(p.(permissions := all))
  }

  /** `setRemembered`. */
  function SetRemembered(p: Profile, remembered: bool): (r: Profile)
    ensures r.remembered == remembered && r.(remembered := p.remembered) == p
  {
    p.(remembered := remembered)
  }

  /** `setLinkedId`: null is accepted and clears the linked id. */
  function SetLinkedId(p: Profile, linkedId: Option<string>): (r: Profile)
    ensures r.linkedId == linkedId && r.(linkedId := p.linkedId) == p
  {
    p.(linkedId := linkedId)
  }
}

=== FILE: oidc_extractor.dfy ===
/**
  `OidcExtractor.extract`: one inbound callback is either a logout request
  (front- or back-channel), answered immediately, or an authentication
  response, turned into credentials.
 */
module OidcExtractor {
  import opened Common
  import opened OidcModel

  /** The headers set on the response that ends a handled logout. */
  const NoCacheHeaders: seq<Effect> :=
    [SetResponseHeader("Cache-Control", "no-cache, no-store"), SetResponseHeader("Pragma", "no-cache")]

  predicate IsDestroy(e: Effect) {
    e.DestroySessionBack? || e.DestroySessionFront?
  }

  /** The session destructions among `effects`, in order. */
  function Destroys(effects: seq<Effect>): (r: seq<Effect>)
    ensures forall e :: e in r <==> e in effects && IsDestroy(e)
    ensures |r| <= |effects|
  {
    if effects == [] then []
    else if IsDestroy(effects[0]) then [effects[0]] + Destroys(effects[1..])
    else Destroys(effects[1..])
  }

  /** Some effect sets a response header. */
  predicate SetsHeader(effects: seq<Effect>) {
    exists i :: 0 <= i < |effects| && effects[i].SetResponseHeader?
  }

  predicate IsLogoutRequest(req: Request) {
    Param(req, LogoutEndpointParameter).Some?
  }

  // ---- requirements of the standards (reference definitions) ----------------

  /** A logout token must not carry a nonce (Back-Channel Logout 1.0, section 2.4). */
  predicate NonceAbsent(c: ClaimSet) {
    c.nonce.None?
  }

  /** The `events` claim is an object holding the back-channel logout member (section 2.4). */
  predicate HasBackchannelEvent(c: ClaimSet) {
    c.events.EventsObject? && BackchannelLogoutEvent in c.events.members
  }

  /** The token names a session (required by this relying party). */
  predicate HasSessionId(c: ClaimSet) {
    !IsBlank(c.sid)
  }

  /** Every requirement the extractor places on validated logout-token claims. */
  predicate AcceptableLogoutClaims(c: ClaimSet) {
    NonceAbsent(c) && HasBackchannelEvent(c) && HasSessionId(c)
  }

  /** RFC 9207, section 2.4: a provider that advertises the `iss` response
      parameter must send its own issuer. */
  predicate IssuerAccepted(metadata: ProviderMetadata, r: SuccessResponse) {
    metadata.supportsIssuerParam ==> r.issuer == Some(metadata.issuer)
  }

  /** RFC 6749, section 10.12: the state sent back equals the state stored in the session. */
  predicate StateAccepted(cfg: Configuration, session: map<string, string>, r: SuccessResponse) {
    cfg.withState ==>
      cfg.stateSessionAttribute in session && r.state == Some(session[cfg.stateSessionAttribute])
  }

  predicate HasAnyCredential(c: Credentials) {
    c.code.Some? || c.idToken.Some? || c.accessToken.Some?
  }

  /** The credentials a success response carries. */
  function CredentialsOf(r: SuccessResponse): (c: Credentials) {
    Credentials(r.code, r.idToken, r.accessToken)
  }

  // ---- logout ------------------------------------------------------------------

  /** The checks on validated claims, in source order; yields the session id to destroy. */
  function ValidatedSessionId(c: ClaimSet): (r: Result<Option<string>, Rejection>)
    ensures r.Success? <==> AcceptableLogoutClaims(c)
    ensures r.Success? ==> r.value == c.sid && r.value.Some?
    ensures !NonceAbsent(c) ==> r == Failure(NonceClaimPresent)
    ensures NonceAbsent(c) && !HasBackchannelEvent(c) ==> r == Failure(BackchannelEventMissing)
  {
    if c.nonce.Some? then Failure(NonceClaimPresent)
    else if !c.events.EventsObject? || BackchannelLogoutEvent !in c.events.members then Failure(BackchannelEventMissing)
    else if IsBlank(c.sid) then Failure(SessionIdMissing)
    else Success(c.sid)
  }

  /** A handled logout: the destroy calls made, the two headers set, then `OkAction("")`. */
  function Respond(calls: seq<Effect>): (x: Extraction) {
    Extraction(Ok(EmptyBody), calls + NoCacheHeaders)
  }

  function Reject(why: Rejection, calls: seq<Effect>): (x: Extraction) {
    Extraction(BadRequest(why), calls)
  }

  /** Back-channel logout: `parsed` is what the JWT parser made of the
      `logout_token` parameter, `validate` is the token validator. */
  function BackChannelLogout(cfg: Configuration, parsed: JwtParse, validate: (Jwt, Option<string>) -> Validation): (x: Extraction)
    ensures x.outcome.Ok? || x.outcome.BadRequest?
    ensures x.outcome.Ok? ==> cfg.logoutValidation ==> parsed.SignedJwt? && validate(parsed.jwt, None).Valid?
    ensures parsed.JwtUnparseable? || parsed.EncryptedJwt? ==> x.effects == []
    ensures cfg.logoutValidation && parsed.SignedJwt? ==>
      |x.effects| > 0 && x.effects[0] == ValidateToken(parsed.jwt, None)
  {
    match parsed
    case JwtUnparseable => Reject(CannotValidateToken, [])
    case EncryptedJwt => Reject(EncryptedToken, [])
    case SignedJwt(jwt) =>
      if cfg.logoutValidation then
        var call := [ValidateToken(jwt, None)];
        match validate(jwt, None)
        case Invalid => Reject(CannotValidateToken, call)
        case Valid(claims) =>
          match ValidatedSessionId(claims)
          case Failure(why) => Reject(why, call)
          case Success(sid) => Respond(call + [DestroySessionBack(sid)])
      else
        match jwt.payload
        case ClaimsUndecodable => Reject(CannotValidateToken, [])
        case ClaimsDecoded(claims) => Respond([DestroySessionBack(claims.sid)])
  }

  /** Front-channel logout: destroy the session named by the `sid` parameter, if any. */
  function FrontChannelLogout(req: Request): (x: Extraction) {
    Respond([DestroySessionFront(Param(req, SessionIdName))])
  }

  // ---- authentication response ----------------------------------------------------

  /** The authentication branch, from the parser's verdict onwards. */
  function Authenticate(cfg: Configuration, parsed: ResponseParse, session: map<string, string>): (o: Outcome)
    ensures o.Creds? || o.NoCreds? || o.Fatal?
    ensures o.NoCreds? <==> parsed.ResponseParsed? && parsed.response.AuthenticationError?
    ensures o.Creds? ==> HasAnyCredential(o.credentials)
    ensures parsed.ResponseUnparseable? ==> o == Fatal(MalformedResponse)
  {
    match parsed
    case ResponseUnparseable => Fatal(MalformedResponse)
    case ResponseParsed(AuthenticationError(_)) => NoCreds
    case ResponseParsed(AuthenticationSuccess(r)) =>
      if cfg.metadata.supportsIssuerParam && Some(cfg.metadata.issuer) != r.issuer then
        Fatal(IssuerMismatch)
      else if cfg.withState && cfg.stateSessionAttribute !in session then
        Fatal(StateUndetermined)
      else if cfg.withState && r.state.None? then
        Fatal(StateMissing)
      else if cfg.withState && Some(session[cfg.stateSessionAttribute]) != r.state then
        Fatal(StateMismatch)
      else if r.code.None? && r.idToken.None? && r.accessToken.None? then
        Fatal(EmptyCredentials)
      else
        Creds(Credentials(r.code, r.idToken, r.accessToken))
  }

  // ---- the entry point ---------------------------------------------------------------

  /** `OidcExtractor.extract` for one request. */
  function Extract(cfg: Configuration, req: Request, env: Collaborators): (x: Extraction)
    ensures IsLogoutRequest(req) <==> x.outcome.Ok? || x.outcome.BadRequest?
    ensures !IsLogoutRequest(req) ==> x.effects == []
    ensures x.outcome.Ok? ==> x.outcome.body == EmptyBody
    ensures x.outcome.Creds? ==> HasAnyCredential(x.outcome.credentials)
  {
    if IsLogoutRequest(req) then
      match Param(req, LogoutTokenParameter)
      case Some(token) => BackChannelLogout(cfg, env.parseJwt(token), env.validate)
      case None => FrontChannelLogout(req)
    else
      Extraction(Authenticate(cfg, env.parseResponse(env.callbackUrl, req.params), env.session), [])
  }

  /** `retrieveParameters`: copies every request parameter, its array of values
      becoming a list in the same order. */
  method RetrieveParameters(params: map<string, seq<string>>) returns (m: map<string, seq<string>>)
    ensures m.Keys == params.Keys
    ensures forall k :: k in m ==> m[k] == params[k]
  {
    m := map[];
    var todo := params.Keys;
    while todo != {}
      invariant todo <= params.Keys
      invariant m.Keys == params.Keys - todo
      invariant forall k :: k in m ==> m[k] == params[k]
      decreases |todo|
    {
      var k :| k in todo;
      m := m[k := params[k]];
      todo := todo - {k};
    }
  }
}

=== FILE: oidc_model.dfy ===
/**
  The values the OIDC callback extractor reads and produces.

  Everything the extractor obtains from a collaborator (the JWT parser, the
  logout-token validator, the authorization-response parser, the session
  store) is an input here; the extractor's exceptions and response actions
  are constructors of `Outcome`; the calls it makes for their side effects
  are recorded as `Effect`s, in the order they are made.
 */
module OidcModel {
  import opened Common

  /** Request parameter that marks a logout callback (`Pac4jConstants.LOGOUT_ENDPOINT_PARAMETER`). */
  const LogoutEndpointParameter: string := "logoutendpoint"
  /** Request parameter carrying a back-channel logout token. */
  const LogoutTokenParameter: string := "logout_token"
  /** Name of the session-id claim and of the front-channel parameter (`Pac4jConstants.OIDC_CLAIM_SESSIONID`). */
  const SessionIdName: string := "sid"
  /** Member of the `events` claim that identifies a back-channel logout token
      (section 2.4 of OpenID Connect Back-Channel Logout 1.0). */
  const BackchannelLogoutEvent: string := "http://schemas.openid.net/event/backchannel-logout"
  /** Body of the OK response that ends a logout (`Pac4jConstants.EMPTY_STRING`). */
  const EmptyBody: string := ""

  /** An inbound HTTP request: every parameter name with its values, in order. */
  datatype Request = Request(params: map<string, seq<string>>)

  /** `WebContext.getRequestParameter`: the first value of the parameter, if any. */
  function Param(req: Request, name: string): (r: Option<string>)
    ensures r.Some? <==> name in req.params && |req.params[name]| > 0
    ensures r.Some? ==> r.value == req.params[name][0]
  {
    if name in req.params && |req.params[name]| > 0 then Some(req.params[name][0]) else None
  }

  // ---- logout token -------------------------------------------------------

  /** The `events` claim as the extractor sees it: absent, not a JSON object, or an object with these member names. */
  datatype EventsClaim = EventsAbsent | EventsNotAnObject | EventsObject(members: set<string>)

  /** The claims of a logout token that the extractor looks at. */
  datatype ClaimSet = ClaimSet(nonce: Option<string>, events: EventsClaim, sid: Option<string>)

  /** `JWT.getJWTClaimsSet()`: the payload decoded, or a parse exception. */
  datatype ClaimsRead = ClaimsDecoded(claims: ClaimSet) | ClaimsUndecodable

  /** A parsed, non-encrypted (signed or plain) JWT. */
  datatype Jwt = Jwt(serialized: string, payload: ClaimsRead)

  /** `JWTParser.parse`: a parse exception, an `EncryptedJWT`, or any other JWT. */
  datatype JwtParse = JwtUnparseable | EncryptedJwt | SignedJwt(jwt: Jwt)

  /** The token validator: verified claims, or a ParseException / BadJOSEException / JOSEException. */
  datatype Validation = Valid(claims: ClaimSet) | Invalid

  // ---- authentication response --------------------------------------------

  /** An `AuthenticationSuccessResponse`; each field may be null. */
  datatype SuccessResponse = SuccessResponse(
    issuer: Option<string>,
    state: Option<string>,
    code: Option<string>,
    idToken: Option<string>,
    accessToken: Option<string>)

  /** An `AuthenticationResponse`: a success or an error response. */
  datatype AuthResponse =
    | AuthenticationSuccess(success: SuccessResponse)
    | AuthenticationError(errorObject: string)

  /** `AuthenticationResponseParser.parse(new URI(url), parameters)`: a
      URISyntaxException or ParseException, or the parsed response. */
  datatype ResponseParse = ResponseUnparseable | ResponseParsed(response: AuthResponse)

  // ---- configuration and collaborators --------------------------------------

  /** The part of the provider metadata the extractor reads (RFC 9207, section 3). */
  datatype ProviderMetadata = ProviderMetadata(issuer: string, supportsIssuerParam: bool)

  /** The relevant settings of `OidcConfiguration` and `OidcClient`. */
  datatype Configuration = Configuration(
    logoutValidation: bool,
    withState: bool,
    metadata: ProviderMetadata,
    stateSessionAttribute: string)

  /** The collaborators the extractor calls, as pure functions of their arguments,
      plus the values it reads from the client and the session. */
  datatype Collaborators = Collaborators(
    parseJwt: string -> JwtParse,
    validate: (Jwt, Option<string>) -> Validation,
    callbackUrl: string,
    parseResponse: (string, map<string, seq<string>>) -> ResponseParse,
    session: map<string, string>)

  // ---- results ---------------------------------------------------------------

  /** `OidcCredentials`: whichever of the three tokens the response carried. */
  datatype Credentials = Credentials(code: Option<string>, idToken: Option<string>, accessToken: Option<string>)

  /** Why a logout request was answered with 400 (the message logged before `BadRequestAction`). */
  datatype Rejection =
    | CannotValidateToken
    | EncryptedToken
    | NonceClaimPresent
    | BackchannelEventMissing
    | SessionIdMissing

  /** Why extraction failed with a `TechnicalException`. */
  datatype TechnicalError =
    | MalformedResponse
    | IssuerMismatch
    | StateUndetermined
    | StateMissing
    | StateMismatch
    | EmptyCredentials

  /** How one call of `extract` ends. */
  datatype Outcome =
    | Creds(credentials: Credentials)   // Optional.of(credentials)
    | NoCreds                           // Optional.empty()
    | Ok(body: string)                  // OkAction thrown
    | BadRequest(why: Rejection)        // BadRequestAction thrown
    | Fatal(error: TechnicalError)      // TechnicalException thrown

  /** A call made for its side effect. */
  datatype Effect =
    | ValidateToken(jwt: Jwt, expectedNonce: Option<string>)
    | DestroySessionBack(sid: Option<string>)
    | DestroySessionFront(sid: Option<string>)
    | SetResponseHeader(name: string, value: string)

  /** The outcome of one `extract` together with the calls it made, in order. */
  datatype Extraction = Extraction(outcome: Outcome, effects: seq<Effect>)
}

=== FILE: oidc_properties.dfy ===
/**
  Properties of `OidcExtractor.Extract`, one lemma per guard of the source:
  how a logout request is answered, which session is destroyed and when,
  and in which order the authentication response is checked.
 */
module OidcExtractorProperties {
  import opened Common
  import opened OidcModel
  import opened OidcExtractor

  // ---- the effect trace ----------------------------------------------------------

  lemma {:induction false} DestroysConcat(a: seq<Effect>, b: seq<Effect>)
    ensures Destroys(a + b) == Destroys(a) + Destroys(b)
    decreases |a|
  {
    if a == [] {
      assert a + b == b;
    } else {
      assert (a + b)[0] == a[0];
      assert (a + b)[1..] == a[1..] + b;
      DestroysConcat(a[1..], b);
    }
  }

  /** The response that ends a handled logout keeps the dispatch's calls and
      then sets the two no-cache headers. */
  lemma RespondLayout(calls: seq<Effect>)
    ensures Respond(calls).outcome == Ok(EmptyBody)
    ensures Respond(calls).effects[..|calls|] == calls
    ensures Respond(calls).effects[|calls|..] == NoCacheHeaders
  {
    var effects := calls + NoCacheHeaders;
    assert effects[..|calls|] == calls;
    assert effects[|calls|..] == NoCacheHeaders;
  }

  /** The response that ends a handled logout destroys exactly the sessions its
      dispatch destroyed, and sets a response header. */
  lemma RespondEffects(calls: seq<Effect>)
    ensures Destroys(Respond(calls).effects) == Destroys(calls)
    ensures SetsHeader(Respond(calls).effects)
  {
    var x := Respond(calls);
    DestroysConcat(calls, NoCacheHeaders);
    assert Destroys(NoCacheHeaders) == [] by {
      assert NoCacheHeaders[1..] == [NoCacheHeaders[1]];
      assert NoCacheHeaders[1..][1..] == [];
    }
    assert x.effects[|calls|] == NoCacheHeaders[0];
  }

  // ---- logout ----------------------------------------------------------------------

  /** A logout request is answered at once: never with credentials, either
      with 400 or with an empty 200 whose last two effects set the no-cache
      headers; headers are set exactly when the answer is 200. */
  lemma LogoutAnsweredImmediately(cfg: Configuration, req: Request, env: Collaborators)
    requires IsLogoutRequest(req)
    ensures var x := Extract(cfg, req, env);
      && (x.outcome.Ok? || x.outcome.BadRequest?)
      && (x.outcome.Ok? ==>
            x.outcome.body == EmptyBody && |x.effects| >= 2 && x.effects[|x.effects| - 2..] == NoCacheHeaders)
      && (SetsHeader(x.effects) <==> x.outcome.Ok?)
  {
    HeadersOnlyWhenOk(cfg, req, env);
  }

  /** For every request, response headers are set if and only if the outcome is the logout 200. */
  lemma HeadersOnlyWhenOk(cfg: Configuration, req: Request, env: Collaborators)
    ensures var x := Extract(cfg, req, env);
      && (SetsHeader(x.effects) <==> x.outcome.Ok?)
      && (x.outcome.Ok? ==> exists calls :: x == Respond(calls))
  {
    var x := Extract(cfg, req, env);
    if x.outcome.Ok? {
      var calls := x.effects[..|x.effects| - 2];
      assert x == Respond(calls);
      RespondEffects(calls);
    } else {
      assert x.effects == [] || (x.effects == [x.effects[0]] && x.effects[0].ValidateToken?);
    }
  }

  /** A session is destroyed exactly once when the logout is answered 200, and
      never otherwise (in particular never on 400 and never on the
      authentication branch). */
  lemma DestroyedExactlyOnceIffOk(cfg: Configuration, req: Request, env: Collaborators)
    ensures var x := Extract(cfg, req, env);
      |Destroys(x.effects)| == if x.outcome.Ok? then 1 else 0
  {
    var x := Extract(cfg, req, env);
    if x.outcome.Ok? {
      var calls := x.effects[..|x.effects| - 2];
      assert x == Respond(calls);
      RespondEffects(calls);
      assert |calls| == 1 || (|calls| == 2 && calls[0].ValidateToken?);
      if |calls| == 2 {
        assert calls[1..] == [calls[1]];
        assert Destroys(calls[1..][1..]) == [];
      } else {
        assert Destroys(calls[1..]) == [];
      }
    } else {
      assert x.effects == [] || (x.effects == [x.effects[0]] && x.effects[0].ValidateToken?);
      if x.effects != [] {
        assert Destroys(x.effects[1..]) == [];
      }
    }
  }

  /** An unparseable or encrypted logout token, a validator failure or an
      undecodable payload is answered 400 and no session is destroyed. */
  lemma BadLogoutTokenRejected(cfg: Configuration, req: Request, env: Collaborators, token: string)
    requires IsLogoutRequest(req) && Param(req, LogoutTokenParameter) == Some(token)
    ensures var x := Extract(cfg, req, env);
      && (env.parseJwt(token).JwtUnparseable? ==> x == Extraction(BadRequest(CannotValidateToken), []))
      && (env.parseJwt(token).EncryptedJwt? ==> x == Extraction(BadRequest(EncryptedToken), []))
      && (env.parseJwt(token).SignedJwt? && cfg.logoutValidation
            && env.validate(env.parseJwt(token).jwt, None).Invalid? ==>
            x == Extraction(BadRequest(CannotValidateToken), [ValidateToken(env.parseJwt(token).jwt, None)]))
      && (env.parseJwt(token).SignedJwt? && !cfg.logoutValidation
            && env.parseJwt(token).jwt.payload.ClaimsUndecodable? ==>
            x == Extraction(BadRequest(CannotValidateToken), []))
      && (x.outcome.BadRequest? ==> Destroys(x.effects) == [])
  {
  }

  /** With logout validation on, the validator is called first and with no
      expected nonce; then nonce, events and sid are checked in that order,
      and the back-channel destroy receives the validated sid. */
  lemma ValidatedLogoutChecks(cfg: Configuration, req: Request, env: Collaborators, token: string, jwt: Jwt, claims: ClaimSet)
    requires IsLogoutRequest(req) && Param(req, LogoutTokenParameter) == Some(token)
    requires cfg.logoutValidation
    requires env.parseJwt(token) == SignedJwt(jwt) && env.validate(jwt, None) == Valid(claims)
    ensures var x := Extract(cfg, req, env);
      && x.effects[0] == ValidateToken(jwt, None)
      && (!NonceAbsent(claims) ==> x == Extraction(BadRequest(NonceClaimPresent), [ValidateToken(jwt, None)]))
      && (NonceAbsent(claims) && !HasBackchannelEvent(claims) ==>
            x == Extraction(BadRequest(BackchannelEventMissing), [ValidateToken(jwt, None)]))
      && (NonceAbsent(claims) && HasBackchannelEvent(claims) && !HasSessionId(claims) ==>
            x == Extraction(BadRequest(SessionIdMissing), [ValidateToken(jwt, None)]))
      && (x.outcome.Ok? <==> AcceptableLogoutClaims(claims))
      && (x.outcome.Ok? ==> x == Respond([ValidateToken(jwt, None), DestroySessionBack(claims.sid)]))
  {
  }

  /** The outcome depends on the validator only through its answer for the
      parsed token with no expected nonce. */
  lemma ValidatorConsultedWithoutNonce(cfg: Configuration, req: Request, env1: Collaborators, env2: Collaborators)
    requires IsLogoutRequest(req) && Param(req, LogoutTokenParameter).Some?
    requires env1.parseJwt(Param(req, LogoutTokenParameter).value) == env2.parseJwt(Param(req, LogoutTokenParameter).value)
    requires forall jwt :: env1.validate(jwt, None) == env2.validate(jwt, None)
    ensures Extract(cfg, req, env1) == Extract(cfg, req, env2)
  {
  }

  /** With logout validation off, the unverified sid claim (possibly null) is
      handed to the back-channel destroy. */
  lemma UnvalidatedLogoutTrustsSid(cfg: Configuration, req: Request, env: Collaborators, token: string, jwt: Jwt, claims: ClaimSet)
    requires IsLogoutRequest(req) && Param(req, LogoutTokenParameter) == Some(token)
    requires !cfg.logoutValidation
    requires env.parseJwt(token) == SignedJwt(jwt) && jwt.payload == ClaimsDecoded(claims)
    ensures Extract(cfg, req, env) == Respond([DestroySessionBack(claims.sid)])
  {
  }

  /** Without a logout token, the front-channel destroy receives the `sid`
      parameter, or null when it is absent, and the request is answered 200. */
  lemma FrontChannelDestroysNamedSession(cfg: Configuration, req: Request, env: Collaborators)
    requires IsLogoutRequest(req) && Param(req, LogoutTokenParameter).None?
    ensures Extract(cfg, req, env) == Respond([DestroySessionFront(Param(req, SessionIdName))])
    ensures SessionIdName !in req.params ==> Extract(cfg, req, env).effects[0] == DestroySessionFront(None)
  {
  }

  // ---- authentication response ------------------------------------------------------

  /** Without the logout marker nothing is called for its side effect, and the
      outcome depends only on the parsed response for the callback URL and the
      request parameters, and on the session: two collaborator sets that agree
      there give the same extraction. */
  lemma AuthenticationBranch(cfg: Configuration, req: Request, env1: Collaborators, env2: Collaborators)
    requires !IsLogoutRequest(req)
    requires env1.parseResponse(env1.callbackUrl, req.params) == env2.parseResponse(env2.callbackUrl, req.params)
    requires env1.session == env2.session
    ensures Extract(cfg, req, env1).effects == []
    ensures !Extract(cfg, req, env1).outcome.Ok? && !Extract(cfg, req, env1).outcome.BadRequest?
    ensures Extract(cfg, req, env1) == Extract(cfg, req, env2)
  {
  }

  /** A provider error response is a negative outcome, not a failure. */
  lemma ErrorResponseGivesNoCredentials(cfg: Configuration, error: string, session: map<string, string>)
    ensures Authenticate(cfg, ResponseParsed(AuthenticationError(error)), session) == NoCreds
  {
  }

  /** When the provider advertises the issuer parameter, a wrong or missing
      issuer is fatal whatever the state. */
  lemma IssuerCheckedBeforeState(cfg: Configuration, r: SuccessResponse, session: map<string, string>)
    requires cfg.metadata.supportsIssuerParam && r.issuer != Some(cfg.metadata.issuer)
    ensures Authenticate(cfg, ResponseParsed(AuthenticationSuccess(r)), session) == Fatal(IssuerMismatch)
  {
  }

  /** When the provider does not advertise the issuer parameter, the issuer
      in the response does not matter. */
  lemma IssuerIgnoredUnlessAdvertised(cfg: Configuration, r: SuccessResponse, issuer: Option<string>, session: map<string, string>)
    requires !cfg.metadata.supportsIssuerParam
    ensures Authenticate(cfg, ResponseParsed(AuthenticationSuccess(r)), session)
         == Authenticate(cfg, ResponseParsed(AuthenticationSuccess(r.(issuer := issuer))), session)
  {
  }

  /** With state checking on, a missing stored state, a missing response state
      and a differing response state are each fatal. */
  lemma StateChecked(cfg: Configuration, r: SuccessResponse, session: map<string, string>)
    requires cfg.withState && IssuerAccepted(cfg.metadata, r)
    ensures var o := Authenticate(cfg, ResponseParsed(AuthenticationSuccess(r)), session);
      && (cfg.stateSessionAttribute !in session ==> o == Fatal(StateUndetermined))
      && (cfg.stateSessionAttribute in session && r.state.None? ==> o == Fatal(StateMissing))
      && ((cfg.stateSessionAttribute in session && r.state.Some?
            && r.state.value != session[cfg.stateSessionAttribute]) ==> o == Fatal(StateMismatch))
  {
  }

  /** With state checking off, neither the session nor the response state matters. */
  lemma StateIgnoredWhenDisabled(cfg: Configuration, r: SuccessResponse, state: Option<string>,
                                 session1: map<string, string>, session2: map<string, string>)
    requires !cfg.withState
    ensures Authenticate(cfg, ResponseParsed(AuthenticationSuccess(r)), session1)
         == Authenticate(cfg, ResponseParsed(AuthenticationSuccess(r.(state := state))), session2)
  {
  }

  /** A success response yields credentials exactly when issuer and state are
      accepted and some token is present; they are then exactly the tokens of
      the response, and an all-empty response is fatal. */
  lemma CredentialsAssembled(cfg: Configuration, r: SuccessResponse, session: map<string, string>)
    ensures var o := Authenticate(cfg, ResponseParsed(AuthenticationSuccess(r)), session);
      && (o.Creds? <==>
            IssuerAccepted(cfg.metadata, r) && StateAccepted(cfg, session, r) && HasAnyCredential(CredentialsOf(r)))
      && (o.Creds? ==> o.credentials == CredentialsOf(r))
      && ((IssuerAccepted(cfg.metadata, r) && StateAccepted(cfg, session, r) && !HasAnyCredential(CredentialsOf(r)))
            ==> o == Fatal(EmptyCredentials))
  {
  }
}

=== FILE: profile_properties.dfy ===
/**
  Properties of the attribute merge and of `CommonProfile`: the general
  laws of the merge rule, and the scenarios of the profile's test suite
  stated as lemmas.
 */
module CommonProfileProperties {
  import opened Common
  import opened AttributeStore
  import opened CommonProfile

  // ---- the merge rule -------------------------------------------------------------

  /** Elements of `r` occur in `r` in the order of their first occurrence in `ys`. */
  predicate InFirstSeenOrder(r: seq<string>, ys: seq<string>) {
    forall i, j :: 0 <= i < j < |r| && r[i] in ys && r[j] in ys ==> FirstIndex(ys, r[i]) < FirstIndex(ys, r[j])
  }

  /** Appended elements keep the order in which they first appear in the added list. */
  lemma {:induction false} UnseenKeepsFirstSeenOrder(seen: seq<string>, ys: seq<string>)
    ensures InFirstSeenOrder(Unseen(seen, ys), ys)
    decreases |ys|
  {
    if ys != [] {
      var tail := ys[1..];
      if ys[0] in seen {
        var r := Unseen(seen, tail);
        UnseenKeepsFirstSeenOrder(seen, tail);
        UnseenContents(seen, tail);
        OrderSkippingHead(r, ys);
      } else {
        var rest := Unseen(seen + [ys[0]], tail);
        UnseenKeepsFirstSeenOrder(seen + [ys[0]], tail);
        UnseenContents(seen + [ys[0]], tail);
        OrderTakingHead(rest, ys);
      }
    }
  }

  lemma FirstIndexOfTail(ys: seq<string>, e: string)
    requires ys != [] && e in ys && e != ys[0]
    ensures e in ys[1..] && FirstIndex(ys, e) == 1 + FirstIndex(ys[1..], e)
  {
  }

  lemma OrderSkippingHead(r: seq<string>, ys: seq<string>)
    requires ys != [] && ys[0] !in r && InFirstSeenOrder(r, ys[1..])
    ensures InFirstSeenOrder(r, ys)
  {
    forall i, j | 0 <= i < j < |r| && r[i] in ys && r[j] in ys
      ensures FirstIndex(ys, r[i]) < FirstIndex(ys, r[j])
    {
      FirstIndexOfTail(ys, r[i]);
      FirstIndexOfTail(ys, r[j]);
    }
  }

  lemma OrderTakingHead(rest: seq<string>, ys: seq<string>)
    requires ys != [] && ys[0] !in rest && InFirstSeenOrder(rest, ys[1..])
    ensures InFirstSeenOrder([ys[0]] + rest, ys)
  {
    var r := [ys[0]] + rest;
    forall i, j | 0 <= i < j < |r| && r[i] in ys && r[j] in ys
      ensures FirstIndex(ys, r[i]) < FirstIndex(ys, r[j])
    {
      assert r[j] == rest[j - 1];
      FirstIndexOfTail(ys, r[j]);
      if i > 0 {
        assert r[i] == rest[i - 1];
        FirstIndexOfTail(ys, r[i]);
      }
    }
  }

  /** Adding a list after another is unseen-filtering their concatenation. */
  lemma {:induction false} UnseenConcat(seen: seq<string>, ys: seq<string>, zs: seq<string>)
    ensures Unseen(seen, ys + zs) == Unseen(seen, ys) + Unseen(seen + Unseen(seen, ys), zs)
    decreases |ys|
  {
    if ys == [] {
      assert ys + zs == zs;
      assert seen + [] == seen;
    } else {
      var y, tail := ys[0], ys[1..];
      assert (ys + zs)[0] == y && (ys + zs)[1..] == tail + zs;
      if y in seen {
        UnseenConcat(seen, tail, zs);
      } else {
        var seen' := seen + [y];
        var front := Unseen(seen', tail);
        UnseenConcat(seen', tail, zs);
        assert seen + ([y] + front) == seen' + front;
        assert [y] + (front + Unseen(seen' + front, zs)) == ([y] + front) + Unseen(seen' + front, zs);
      }
    }
  }

  /** In merge mode, adding two lists one after the other stores the same
      list as adding their concatenation once. */
  lemma MergeTwiceIsMergeOfConcatenation(xs: seq<string>, ys: seq<string>, zs: seq<string>)
    ensures Merge(Merge(xs, ys), zs) == Merge(xs, ys + zs)
  {
    var first := Unseen(xs, ys);
    var second := Unseen(xs + first, zs);
    calc {
      Merge(xs, ys + zs);
      xs + Unseen(xs, ys + zs);
      { UnseenConcat(xs, ys, zs); }
      xs + (first + second);
      (xs + first) + second;
      Merge(xs + first, zs);
    }
  }

  /** Re-adding a list is idempotent: the second merge changes nothing. */
  lemma MergeIdempotent(xs: seq<string>, ys: seq<string>)
    ensures Merge(Merge(xs, ys), ys) == Merge(xs, ys)
  {
  }

  /** Restriction of `m` to the keys listed in `keys`. */
  function Restrict(m: Attributes, keys: seq<string>): (r: Attributes) {
    map k | k in m && k in keys :: m[k]
  }

  /** Putting one more key first and then the rest is putting all of them. */
  lemma PutThenPutAll(store: Attributes, mergeMode: bool, incoming: Attributes, k0: string, rest: seq<string>)
    requires k0 in incoming && k0 !in rest
    ensures PutAll(Put(store, mergeMode, k0, incoming[k0]), mergeMode, Restrict(incoming, rest))
         == PutAll(store, mergeMode, Restrict(incoming, [k0] + rest))
  {
    var after := Put(store, mergeMode, k0, incoming[k0]);
    var lhs := PutAll(after, mergeMode, Restrict(incoming, rest));
    var rhs := PutAll(store, mergeMode, Restrict(incoming, [k0] + rest));
    forall k ensures k in Restrict(incoming, [k0] + rest) <==> k == k0 || k in Restrict(incoming, rest) {
      assert k in [k0] + rest <==> k == k0 || k in rest;
    }
    assert lhs.Keys == rhs.Keys;
    forall k | k in lhs
      ensures lhs[k] == rhs[k]
    {
      if k == k0 {
        assert lhs[k] == after[k0];
      } else if k in Restrict(incoming, rest) {
        assert Lookup(after, k) == Lookup(store, k);
      }
    }
  }

  /** Adding the entries one key at a time, in any order, is `PutAll`; this is
      how `addAttributes` loops over its argument calling `addAttribute`. */
  lemma {:induction false} PutEachIsPutAll(store: Attributes, mergeMode: bool, incoming: Attributes, keys: seq<string>)
    requires NoDuplicates(keys)
    requires forall k :: k in keys ==> k in incoming
    ensures PutEach(store, mergeMode, incoming, keys) == PutAll(store, mergeMode, Restrict(incoming, keys))
    decreases |keys|
  {
    if keys == [] {
      assert PutAll(store, mergeMode, Restrict(incoming, keys)) == store;
    } else {
      var k0, rest := keys[0], keys[1..];
      assert keys == [k0] + rest;
      assert NoDuplicates(rest) by {
        forall i, j | 0 <= i < j < |rest| ensures rest[i] != rest[j] {
          assert rest[i] == keys[i + 1] && rest[j] == keys[j + 1];
        }
      }
      assert k0 !in rest;
      PutEachIsPutAll(Put(store, mergeMode, k0, incoming[k0]), mergeMode, incoming, rest);
      PutThenPutAll(store, mergeMode, incoming, k0, rest);
    }
  }

  /** `addAttributes` equals calling `addAttribute` for each entry, whatever the iteration order. */
  lemma AddAttributesIsAddAttributeForEach(p: Profile, attributes: Attributes, keys: seq<string>)
    requires NoDuplicates(keys)
    requires forall k :: k in keys <==> k in attributes
    ensures AddAttributes(p, attributes).attributes == PutEach(p.attributes, p.mergeAttributes, attributes, keys)
  {
    PutEachIsPutAll(p.attributes, p.mergeAttributes, attributes, keys);
    assert Restrict(attributes, keys) == attributes;
  }

  /** Adding a single-entry map is the same as adding that entry. */
  lemma AddAttributesOfOneEntry(p: Profile, key: string, value: AttributeValue)
    ensures AddAttributes(p, map[key := value]) == AddAttribute(p, key, value)
    ensures AddAuthenticationAttributes(p, map[key := value]) == AddAuthenticationAttribute(p, key, value)
  {
  }

  // ---- the profile's test scenarios -------------------------------------------------

  /** A fresh profile has a null id; after `setId(x)` the id is x. */
  lemma SetIdThenGetId(className: string, mergeAttributes: bool, id: string)
    requires !IsBlank(Some(id))
    ensures NewProfile(className, mergeAttributes).id == None
    ensures SetId(NewProfile(className, mergeAttributes), Some(id)) ==
      Success(NewProfile(className, mergeAttributes).(id := Some(id)))
  {
  }

  /** `setId(null)` and `setId("")` are rejected with "id cannot be blank". */
  lemma NullIdRejected(p: Profile)
    ensures SetId(p, None) == Failure("id cannot be blank")
    ensures SetId(p, Some("")) == Failure("id cannot be blank")
  {
  }

  /** The typed id is the class name, the separator and the id; two profiles of
      one class have the same typed id exactly when they have the same id. */
  lemma TypedIdDeterminesId(p: Profile, q: Profile)
    requires p.className == q.className && p.id.Some? && q.id.Some?
    ensures TypedId(p) == p.className + TypedIdSeparator + p.id.value
    ensures TypedId(p) == TypedId(q) <==> p.id == q.id
  {
    if TypedId(p) == TypedId(q) {
      assert JavaString(p.id) == TypedId(p)[|p.className| + |TypedIdSeparator|..];
    }
  }

  /** The typed id of a fresh `CommonProfile` given the id "id". */
  lemma TypedIdOfCommonProfile(mergeAttributes: bool)
    ensures SetId(NewProfile(CommonProfileClass, mergeAttributes), Some("id")).Success?
    ensures TypedId(SetId(NewProfile(CommonProfileClass, mergeAttributes), Some("id")).value)
         == "org.pac4j.core.profile.CommonProfile" + TypedIdSeparator + "id"
  {
    assert "id"[0] == 'i';
  }

  /** Adding one attribute to a fresh profile, by key or as a map, gives a
      one-entry map holding that value; likewise for authentication attributes. */
  lemma AddAttributeToFreshProfile(className: string, mergeAttributes: bool, key: string, value: AttributeValue)
    ensures var p := NewProfile(className, mergeAttributes);
      && AddAttribute(p, key, value).attributes == map[key := value]
      && AddAttributes(p, map[key := value]).attributes == map[key := value]
      && AddAuthenticationAttribute(p, key, value).authenticationAttributes == map[key := value]
      && AddAuthenticationAttributes(p, map[key := value]).authenticationAttributes == map[key := value]
      && AddAuthenticationAttribute(p, key, value).attributes == map[]
      && AddAuthenticationAttributes(p, map[key := value]).attributes == map[]
      && AddAttribute(p, key, value).authenticationAttributes == map[]
      && AddAttributes(p, map[key := value]).authenticationAttributes == map[]
  {
    var p := NewProfile(className, mergeAttributes);
    assert AddAttributes(p, map[key := value]).attributes.Keys == {key};
    assert AddAuthenticationAttributes(p, map[key := value]).authenticationAttributes.Keys == {key};
  }

  /** In merge mode a second list under a list-valued key appends its unseen
      elements in order, and de-duplicates; the map keeps one key. */
  lemma MergeModeAppendsUnseen(p: Profile, key: string, xs: seq<string>, ys: seq<string>)
    requires p.mergeAttributes && key in p.attributes && p.attributes[key] == Multi(xs)
    ensures var r := AddAttribute(p, key, Multi(ys));
      && r.attributes.Keys == p.attributes.Keys
      && r.attributes[key] == Multi(xs + Unseen(xs, ys))
  {
  }

  /** In replace mode a second list under the same key overwrites the first. */
  lemma ReplaceModeOverwrites(p: Profile, key: string, value: AttributeValue)
    requires !p.mergeAttributes
    ensures AddAttribute(p, key, value).attributes == p.attributes[key := value]
  {
  }

  /** The attributes of a fresh profile after adding `first` and then `second` under `key`. */
  function AddedTwice(mergeAttributes: bool, key: string, first: seq<string>, second: seq<string>): (r: Attributes) {
    AddAttribute(AddAttribute(NewProfile(CommonProfileClass, mergeAttributes), key, Multi(first)), key, Multi(second)).attributes
  }

  lemma AddedTwiceIs(mergeAttributes: bool, key: string, first: seq<string>, second: seq<string>)
    ensures AddedTwice(mergeAttributes, key, first, second)
         == map[key := if mergeAttributes then Multi(first + Unseen(first, second)) else Multi(second)]
  {
    var p := AddAttribute(NewProfile(CommonProfileClass, mergeAttributes), key, Multi(first));
    assert p.attributes == map[key := Multi(first)];
  }

  /** Merge mode: ["Value1"] then ["Value2", "Value3"] gives all three, under one key. */
  lemma MergeScenarioAppends(key: string)
    ensures AddedTwice(true, key, ["Value1"], ["Value2", "Value3"]) == map[key := Multi(["Value1", "Value2", "Value3"])]
  {
    AddedTwiceIs(true, key, ["Value1"], ["Value2", "Value3"]);
    assert "Value2"[5] != "Value1"[5] && "Value3"[5] != "Value1"[5];
    assert Unseen(["Value1"], ["Value2", "Value3"]) == ["Value2", "Value3"];
    assert ["Value1"] + ["Value2", "Value3"] == ["Value1", "Value2", "Value3"];
  }

  /** Replace mode: ["Value1"] then ["Value2", "Value3"] keeps only the second list. */
  lemma ReplaceScenarioOverwrites(key: string)
    ensures AddedTwice(false, key, ["Value1"], ["Value2", "Value3"]) == map[key := Multi(["Value2", "Value3"])]
  {
    AddedTwiceIs(false, key, ["Value1"], ["Value2", "Value3"]);
  }

  /** Merge mode: adding [v] twice stores [v]. */
  lemma MergeScenarioDuplicate(key: string, v: string)
    ensures AddedTwice(true, key, [v], [v]) == map[key := Multi([v])]
  {
    AddedTwiceIs(true, key, [v], [v]);
    assert Unseen([v], [v]) == [];
  }

  /** Merge mode: [v, "Value2"] then [v, "Value3"] gives [v, "Value2", "Value3"]. */
  lemma MergeScenarioDeDuplicates(key: string, v: string)
    requires v != "Value3"
    ensures AddedTwice(true, key, [v, "Value2"], [v, "Value3"]) == map[key := Multi([v, "Value2", "Value3"])]
  {
    AddedTwiceIs(true, key, [v, "Value2"], [v, "Value3"]);
    assert "Value3"[5] != "Value2"[5];
    var tail := [v, "Value3"][1..];
    assert tail == ["Value3"];
    assert Unseen([v, "Value2"], tail) == ["Value3"];
    assert Unseen([v, "Value2"], [v, "Value3"]) == ["Value3"];
    assert [v, "Value2"] + ["Value3"] == [v, "Value2", "Value3"];
  }

  /** Adding a role or permission to a fresh profile gives a one-element set containing it. */
  lemma RoleAndPermissionAdded(className: string, mergeAttributes: bool, role: string, permission: string)
    requires !IsBlank(Some(role)) && !IsBlank(Some(permission))
    ensures var p := NewProfile(className, mergeAttributes);
      && AddRole(p, Some(role)).Success?
      && |AddRole(p, Some(role)).value.roles| == 1 && role in AddRole(p, Some(role)).value.roles
      && AddPermission(p, Some(permission)).Success?
      && |AddPermission(p, Some(permission)).value.permissions| == 1
      && permission in AddPermission(p, Some(permission)).value.permissions
  {
  }

  /** A blank role or permission and a null role or permission collection are rejected. */
  lemma BlankOrNullRejected(p: Profile)
    ensures AddRole(p, Some("")) == Failure("role cannot be blank")
    ensures AddRoles(p, None) == Failure("roles cannot be null")
    ensures AddPermission(p, Some("")) == Failure("permission cannot be blank")
    ensures AddPermissions(p, None) == Failure("permissions cannot be null")
  {
  }

  /** `remembered` starts false and can be set to true. */
  lemma RememberedDefaultsFalse(className: string, mergeAttributes: bool)
    ensures !NewProfile(className, mergeAttributes).remembered
    ensures SetRemembered(NewProfile(className, mergeAttributes), true).remembered
  {
  }

  /** Setting a null linked id leaves it null, whether or not one was set before. */
  lemma NullLinkedIdLeavesNull(className: string, mergeAttributes: bool, linked: string)
    ensures SetLinkedId(SetLinkedId(NewProfile(className, mergeAttributes), Some(linked)), None).linkedId == None
    ensures SetLinkedId(NewProfile(className, mergeAttributes), None).linkedId == None
  {
  }
}
